=== FILE: README.md ===
# Jamf batch scripts: a Dafny model

This project models the sequential core of five batch scripts that drive the
Jamf "JSSResource" REST API:

- `jamf_export_apps.py` lists the mobile-device applications, fetches each
  one's detail and projects it into a CSV row. The three VPP licence columns
  appear only when the licensing flag `== True`.
- `jamf_export_config_profiles.py` does the same for configuration profiles,
  with five fixed columns.
- `jamf_backup_apps.py` fetches every configuration profile's detail document
  into a dict keyed by id.
- `jamf_delete_apps.py` reads application ids from a CSV file. For each id it
  GETs the detail, keeps the parsed answer and DELETEs the application. After
  the loop it writes the kept answers to a `.backup` file.
- `jhs_clear_failures.py` reads the members of smart group 185. It then sends
  one "flush failed commands" DELETE per device.

The HTTP client is an oracle, `Server = (history, request) -> Option<Json>`.
It gives the parsed answer to a request sent after the requests in `history`,
or `None` when the body does not parse. Because the oracle sees the history, a
DELETE can change what later GETs return. Every script run is a `Run`: the
ordered trace of `Get`, `Delete`, `WriteFile` and `WriteCsv` events it issues,
plus its result or the exception that ended it. A Python exception ends the
run where it is raised.

Modules:

- `Json` holds the JSON datatype and Python subscripting: `d["k"]` raises
  KeyError or TypeError.
- `PyText` holds `str()` of an int and its inverse.
- `Http` holds the oracle, URLs and the generic one-GET-per-item loop.
- `Envelope` holds the id walk every `FetchIDS` performs.
- `Rows` holds the column-by-column row projection.
- There is one module per script: `ExportApps`, `ExportProfiles`,
  `BackupApps`, `DeleteApps` and `ClearFailures`.

Behaviour of the code that the model keeps:

- The comment above `DeleteApps` (jamf/jamf_delete_apps.py:79) says the
  script backs the applications' JSON up and then deletes them. The code
  writes the backup once, after the loop (line 89), so every DELETE comes
  before it. A detail GET whose answer does not parse therefore leaves the
  earlier applications deleted and no backup written.
- Any exception other than the IOError that `ReadCSV`, `WriteToCSV` and
  `WriteArrayFile` catch ends the run where it is raised. The per-id loops
  have no `try`, so the remaining ids are not processed. An IOError in the
  middle of `ReadCSV` leaves the ids read so far, and the run goes on with
  them.
- An exported application row with the licensing flag off has the nine base
  keys only; the three licence columns are not assigned. Any missing path in
  a detail document raises; no value is defaulted.
- Each list request is a single GET whose answer is taken as the whole
  collection. Requests are not retried, a failed status code is not checked
  apart from the body failing to parse, and no script sets an explicit exit
  code: an uncaught exception ends it, which the model carries in the run's
  result. The backup script writes no file, because its writers are empty
  stubs that `main` never calls.

## Model

| member | source | states |
|---|---|---|
| PyText.IntToDecimalRoundTrip | jamf/jamf_export_apps.py:76 | `str(n)` of an integer id reads back as `n`, negative ids included |
| PyText.StrIntInjective | jamf_backup/jamf_backup_apps.py:76 | distinct integer ids print as distinct strings |
| Http.DetailUrlInjective | jamf/jamf_export_apps.py:76 | distinct integer ids address distinct detail URLs |
| Http.GetEach | jamf/jamf_export_apps.py:75-78 | the fetch loop sends at most one GET per item, the k-th to the k-th item's URL; on success it sends exactly one per item and returns one value per item |
| Http.GetEachOk | jamf/jamf_export_config_profiles.py:75-86 | each value of a completed loop is what the projection made of the answer to that item's own GET, given the GETs before it |
| Http.GetEachErr | jamf/jamf_export_config_profiles.py:75-86 | a failed loop stops at the first item whose GET did not parse or whose projection raised, with that fault; all earlier items succeeded |
| Http.GetEachAnswers | jamf/jamf_export_config_profiles.py:75-86 | the `GetEachOk` fact with the step opened up: each item's GET got an answer that parsed, and the projection or store applied to that answer gave the item's value; this is the form the scripts' contracts state |
| Envelope.IdsOf | jamf/jamf_export_apps.py:64-66 | ids are collected iff every element is a dict with `id`; they are then the elements' ids, one for one and in order; otherwise the fault is that of the first element without one |
| Envelope.IdsOfList | jamf_backup/jamf_backup_apps.py:64-65 | a walk completes iff the value is a list of dicts with ids, an empty str or an empty dict; a non-empty dict fails with KeyError(0) by index and TypeError by iteration; a non-empty str, null, bool or int fails with TypeError |
| Envelope.IdsIn | jamf/jamf_export_apps.py:63-66 | a missing envelope key raises KeyError of that key, a non-dict document raises TypeError, otherwise the walk decides |
| Envelope.FetchIds | jamf/jamf_export_apps.py:58-67 | exactly one GET of the list URL; ids are returned iff the answer parses to an envelope with a walkable list under the key, and they are its elements' ids in server order |
| Rows.Project | jamf/jamf_export_apps.py:79-88 | a row is built iff every path resolves; its keys are exactly the columns and each value is the document's value unchanged; otherwise the fault is that of the first path that fails |
| ExportApps.TablesFollowHeader | jamf/jamf_export_apps.py:80-92 | the nine unconditional assignments fill the header's first nine columns and the three licence assignments its last three, in header order |
| ExportApps.TablesCoverHeader | jamf/jamf_export_apps.py:116 | the nine always-assigned columns and the three licence columns are disjoint and together make up the twelve-column header |
| ExportApps.ProjectApp | jamf/jamf_export_apps.py:79-93 | a row exists iff the nine base paths resolve and, when the flag `== True` (True or 1), the three licence paths too; values are copied; keys are the whole header with VPP on and the nine base columns with VPP off; a failure raises the fault of the first base path that fails, or, with the base row built and VPP on, of the first licence path that fails; a document without the `vpp` object yields no row, whatever the flag would be |
| ExportApps.FetchIds | jamf/jamf_export_apps.py:58-67 | one GET of the application list; the returned ids are the elements' ids in order; an envelope without `mobile_device_applications` raises KeyError |
| ExportApps.FetchAppInfo | jamf/jamf_export_apps.py:73-94 | one GET per id in input order to `.../mobiledeviceapplications/id/<str(id)>`; on success exactly one GET and one row per id, the k-th row being the projection of the answer to the k-th GET, each row's keys within the header; a failed loop stopped at its last GET, the first whose answer did not parse or whose projection raised, every earlier id's row having been built |
| ExportApps.ExportRun | jamf/jamf_export_apps.py:115-125 | a completed export is the list GET, then the detail GETs of the listed ids in order, then one CSV write with the fixed header whose rows are the projections the detail fetch built, each row's keys within the header |
| ExportApps.ExportRunReadsOnly | jamf/jamf_export_apps.py:115-125 | the export sends no DELETE; every event before the CSV write is a GET, and a failed run writes nothing |
| ExportProfiles.TableMatchesHeader | jamf/jamf_export_config_profiles.py:108 | the five assigned columns are distinct and are exactly the header's columns |
| ExportProfiles.ProjectProfile | jamf/jamf_export_config_profiles.py:79-85 | a row exists iff all five paths resolve; its keys are exactly the header's five columns, each holding the document's value unchanged; otherwise the fault is that of the first path that fails |
| ExportProfiles.FetchIds | jamf/jamf_export_config_profiles.py:58-67 | one GET of the profile list; the returned ids are the elements' ids in order; an envelope without `configuration_profiles` raises KeyError |
| ExportProfiles.FetchConfInfo | jamf/jamf_export_config_profiles.py:73-86 | one GET per id in input order to `.../configurationprofiles/id/<str(id)>`; on success exactly one GET and one row per id, the k-th row being the projection of the answer to the k-th GET, each with exactly the header's keys; a failed loop stopped at its last GET, the first whose answer did not parse or whose projection raised, every earlier id's row having been built |
| ExportProfiles.ExportRun | jamf/jamf_export_config_profiles.py:107-117 | a completed export is the list GET, then the detail GETs of the listed ids in order, then one CSV write with the five-column header whose rows are the projections the detail fetch built, each with exactly the header's keys |
| ExportProfiles.ExportRunReadsOnly | jamf/jamf_export_config_profiles.py:107-117 | the export sends no DELETE; every event before the CSV write is a GET, and a failed run writes nothing |
| BackupApps.FetchIds | jamf_backup/jamf_backup_apps.py:57-67 | one GET of the profile list, walked by iteration; the returned ids are the elements' ids in order; an envelope without `configuration_profiles` raises KeyError |
| BackupApps.ToDict | jamf_backup/jamf_backup_apps.py:74-79 | the dict built by storing each id's value has as keys exactly the ids, with True and 1 filed together |
| BackupApps.ToDictLast | jamf_backup/jamf_backup_apps.py:75-79 | the entry for an id holds the value stored at its last occurrence, so a later duplicate overwrites an earlier one |
| BackupApps.FetchConfigData | jamf_backup/jamf_backup_apps.py:73-81 | one GET per id, duplicates included, in input order; on success the keys are exactly the ids and each entry is the whole parsed answer to the GET of that id's last occurrence; a completed fetch had only hashable ids, and a failure other than an unparsed answer is a TypeError at an unhashable id |
| BackupApps.FetchConfigDataStops | jamf_backup/jamf_backup_apps.py:73-81 | a failed fetch stopped at its last GET, the first whose answer did not parse or whose id could not be stored; every earlier id was stored |
| BackupApps.StoredAnswers | jamf_backup/jamf_backup_apps.py:75-79 | every id of a completed loop was hashable, and the k-th document it stores is the whole parsed answer to the k-th GET, unmodified |
| BackupApps.BackupRun | jamf_backup/jamf_backup_apps.py:99-106 | the run is the list GET followed by the detail fetch of exactly the listed ids, and returns that fetch's dict or fault; a failed listing ends the run after its one GET; every event is a GET: no DELETE and no file write |
| DeleteApps.IdColumn | jamf/jamf_delete_apps.py:72-73 | the id column is read iff every row has one; the values are the rows' ids in order; otherwise KeyError of `id` |
| DeleteApps.ReadCsv | jamf/jamf_delete_apps.py:68-76 | the ids of the rows read before any I/O error, as strings, in row order; none if the file cannot be opened; a row without an id column raises |
| DeleteApps.ArrayFileLines | jamf/jamf_delete_apps.py:56-60 | the backup file text, read back line by line, gives one line per item in order, the item's text unchanged |
| DeleteApps.BackupFileLines | jamf/jamf_delete_apps.py:56-60 | the text of the backup write, one `str(item)` line per kept answer, reads back line by line as those texts in order |
| DeleteApps.PairsDeletes | jamf/jamf_delete_apps.py:83-88 | the DELETEs of the loop's GET/DELETE pairs go to the ids' URLs, one per id, in input order |
| DeleteApps.DeleteEach | jamf/jamf_delete_apps.py:82-88 | a completed loop issues `GET u0, DELETE u0, GET u1, ...` and keeps one answer per id; a failed loop fails on an unparsed GET, after the pairs of the earlier ids and before that id's DELETE |
| DeleteApps.DeleteEachCompletes | jamf/jamf_delete_apps.py:83-88 | when every GET parses, the loop completes and the k-th kept answer is the answer to the k-th GET |
| DeleteApps.DeleteEachStopsAt | jamf/jamf_delete_apps.py:83-88 | when the k-th GET is the first that does not parse, the loop has sent exactly the pairs of the first k ids and that GET |
| DeleteApps.DeleteApps | jamf/jamf_delete_apps.py:81-89 | on success the trace is the pairs followed by one backup write named after the timestamp, holding one item per id, with every DELETE before it; a failure writes no file |
| DeleteApps.BackupAfterAllDeletes | jamf/jamf_delete_apps.py:81-89 | when every GET parses, the backup write is the last event, after every DELETE, and its k-th item is the answer to the k-th GET |
| DeleteApps.FailureLeavesNoBackup | jamf/jamf_delete_apps.py:83-89 | when the k-th GET is the first that does not parse, the first k ids have been deleted in order, the k-th has not, and no backup is written |
| DeleteApps.DeleteRepliesIgnored | jamf/jamf_delete_apps.py:88 | two servers that answer every GET alike give the same loop and run: DELETE answers affect neither the later iterations nor the backup |
| DeleteApps.DeleteRun | jamf/jamf_delete_apps.py:94-102 | a missing id column raises before any request; an unopenable file leads to an empty backup write only; a completed run read its ids, sent one GET/DELETE pair per id read, in order, and ends with the `<stamp>.backup` write; once the ids are read, the run is the delete loop over them against the server, so an unparsed detail GET raises and writes no backup, and the backup holds the GET answers |
| ClearFailures.GroupUrl | jamf/jhs_clear_failures.py:25-27 | `str(185)` is the text `185`, so the group URL is the fixed server's `/mobiledevicegroups/id/185` |
| ClearFailures.FlushUrlRoundTrip | jamf/jhs_clear_failures.py:51 | an integer device id can be read back from its flush URL, which ends in the literal `/status/Failed` |
| ClearFailures.FlushUrlInjective | jamf/jhs_clear_failures.py:51 | distinct integer device ids get distinct flush URLs |
| ClearFailures.DeviceIds | jamf/jhs_clear_failures.py:40-46 | the device ids are collected iff `mobile_device_group.mobile_devices` exists and can be walked by index; they are its elements' ids in order; a missing path raises the first missing key |
| ClearFailures.Flushes | jamf/jhs_clear_failures.py:50-52 | exactly one DELETE per collected id, the k-th to the k-th id's flush URL |
| ClearFailures.ClearFailures | jamf/jhs_clear_failures.py:38-53 | one GET of the group, then only DELETEs and no per-device GET; a failure reading the group or any device sends no DELETE; a completed run sends one flush per device of the group, in order |
| ClearFailures.FlushesNameDevices | jamf/jhs_clear_failures.py:50-53 | the DELETE URLs of a completed run are the devices' flush URLs in group order, and an integer id can be read back from each |
| ClearFailures.FlushRepliesIgnored | jamf/jhs_clear_failures.py:52-53 | the flush replies do not affect the run: servers that answer the group GET alike give the same run |

## Left out

- Command-line parsing, session creation, credentials, headers and every `print`: these are setup and logging, with no effect on the trace.
- `json.loads`: an abstract parse. The oracle returns the document, or `None` for a body that does not parse. A transport exception from `requests` is folded into `None` too.
- A transport exception raised by a DELETE. The model lets every DELETE return, since the oracle gives only parsed answers and the code never reads a DELETE's result. In `DeleteApps` such an exception would end the run like an unparsed GET does: the earlier applications deleted and no backup written. In the flush loop it would skip the remaining devices.
- JSON numbers with a fraction, and ids that are floats: the JSON datatype has only integers.
- `str()` of a list or dict (its repr) is a fixed placeholder. The model keeps the fact that such ids reach the URL and, in the backup script, raise TypeError as dict keys. It does not keep the exact text.
- Dict key identity: `True` and `1` (and `False` and `0`) are filed under the integer. The insertion order of dict keys is not modelled.
- `csv.DictWriter` and `csv.DictReader` internals: how short rows are padded and how quoting works. Writing a CSV is one `WriteCsv` event with the header and the rows. Reading a CSV is given as the rows it delivers, possibly cut short by an I/O error.
- The I/O error swallowed by `WriteToCSV` and `WriteArrayFile`: a write is one attempted event, whether or not the file system accepts it.
- `datetime.now().timestamp()`: the backup file name is built from an opaque `stamp` string.
- The stubs `CreateDirectory` and `WriteXMLToFiles` in the backup script do nothing and are never called, so they have no model.
- DeleteApps.ArrayFileLines: proves the line-by-line round trip only for items whose text contains no newline, because a newline inside an item's text would split it across lines.
- DeleteApps.BackupFileLines: same restriction, for answers whose text contains no newline.
- ClearFailures.FlushUrlRoundTrip: reads back integer ids only; a str id is printed unchanged and may itself contain `/status/Failed`.

=== FILE: backup_apps.dfy ===
/**
 * jamf_backup/jamf_backup_apps.py: list every configuration profile and
 * gather each one's full detail document into a dict keyed by id. The
 * directory and file writers are empty stubs that `main` never calls, so a
 * run only reads.
 */
module BackupApps {
  import opened Json
  import opened Http
  import Envelope

  const ListKey := "configuration_profiles"

  /** Lines 57-67: one GET of the profile list; the ids of its elements in server order. */
  function FetchIds(base: string, srv: Server, history: seq<Event>): (r: Run<seq<Json>>)
    ensures r.trace == [Get(base + ProfilesPath)]
    ensures r.result.Ok? <==> Envelope.Listable(srv(history, Get(base + ProfilesPath)), ListKey)
    ensures r.result.Ok? ==> Envelope.Lists(srv(history, Get(base + ProfilesPath)), ListKey, r.result.value)
    ensures srv(history, Get(base + ProfilesPath)).Some? && srv(history, Get(base + ProfilesPath)).value.JObj? && ListKey !in srv(history, Get(base + ProfilesPath)).value.fields ==>
      r.result == Err(KeyError(JStr(ListKey)))
  {
    Envelope.FetchIds(base + ProfilesPath, ListKey, Envelope.ByIteration, srv, history)
  }

  function ConfigUrl(base: string, id: Json): string
  {
    DetailUrl(base, ProfilesPath, id)
  }

  /** No later position of `keys` files its element under the same dict key as position `i`. */
  predicate LastOf(keys: seq<Json>, i: nat)
    requires i < |keys|
  {
    forall j :: i < j < |keys| ==> DictKey(keys[j]) != DictKey(keys[i])
  }

  /** The dict keys the ids in `keys` are filed under. */
  function KeySet(keys: seq<Json>): set<Json>
  {
    set i | 0 <= i < |keys| :: DictKey(keys[i])
  }

  /** `d = {}; for k, v in zip(keys, vals): d[k] = v`, for hashable keys: a later key overwrites an earlier equal one. */
  function ToDict(keys: seq<Json>, vals: seq<Json>): (m: map<Json, Json>)
    requires |keys| == |vals|
    ensures m.Keys == KeySet(keys)
    decreases |keys|
  {
    if |keys| == 0 then map[]
    else
      var n := |keys| - 1;
      var ks := keys[..n];
      var front := ToDict(ks, vals[..n]);
      var m := front[DictKey(keys[n]) := vals[n]];
      assert KeySet(keys) == KeySet(ks) + {DictKey(keys[n])} by {
        assert forall i :: 0 <= i < n ==> ks[i] == keys[i];
      }
      m
  }

  /** The entry for a key holds the value paired with its last occurrence. */
  lemma {:induction false} ToDictLast(keys: seq<Json>, vals: seq<Json>, i: nat)
    requires |keys| == |vals| && i < |keys| && LastOf(keys, i)
    ensures DictKey(keys[i]) in ToDict(keys, vals) && ToDict(keys, vals)[DictKey(keys[i])] == vals[i]
    decreases |keys|
  {
    var n := |keys| - 1;
    if i < n {
      var ks := keys[..n];
      assert ks[i] == keys[i];
      assert LastOf(ks, i) by {
        forall j | i < j < |ks| ensures DictKey(ks[j]) != DictKey(ks[i]) {
          assert ks[j] == keys[j];
        }
      }
      ToDictLast(ks, vals[..n], i);
      assert vals[..n][i] == vals[i];
      assert DictKey(keys[n]) != DictKey(keys[i]);
    }
  }

  /** The body of the loop at lines 75-79 after the GET: storing the document hashes the id. */
  function Store(id: Json, doc: Json): Result<Json>
  {
    if Hashable(id) then Ok(doc) else Err(TypeError)
  }

  /**
   * Lines 73-81: one GET per id, duplicates included, in input order; each
   * parsed answer is stored whole under its id, a later duplicate
   * overwriting the earlier one.
   */
  function FetchConfigData(base: string, ids: seq<Json>, srv: Server, history: seq<Event>): (r: Run<map<Json, Json>>)
    ensures |r.trace| <= |ids|
    ensures forall k :: 0 <= k < |r.trace| ==> r.trace[k] == Get(ConfigUrl(base, ids[k]))
    ensures r.result.Ok? ==> |r.trace| == |ids|
    ensures r.result.Ok? ==> r.result.value.Keys == KeySet(ids)
    ensures r.result.Ok? ==> forall k :: 0 <= k < |ids| && LastOf(ids, k) ==>
      && srv(history + r.trace[..k], Get(ConfigUrl(base, ids[k]))).Some?
      && r.result.value[DictKey(ids[k])] == srv(history + r.trace[..k], Get(ConfigUrl(base, ids[k]))).value
    ensures r.result.Ok? ==> forall k :: 0 <= k < |ids| ==> Hashable(ids[k])
    ensures r.result.Err? ==> 0 < |r.trace|
    ensures r.result.Err? && r.result.fault != BadResponse ==> r.result.fault == TypeError && !Hashable(ids[|r.trace| - 1])
  {
    var url := id => ConfigUrl(base, id);
    var docs := GetEach(ids, url, Store, srv, history);
    match docs.result
    case Err(e) =>
      GetEachErr(ids, url, Store, srv, history);
      Run(docs.trace, Err(e))
    case Ok(vals) =>
      StoredAnswers(base, ids, srv, history);
      assert forall k :: 0 <= k < |ids| ==> Hashable(ids[k]);
      forall k | 0 <= k < |ids| && LastOf(ids, k) ensures ToDict(ids, vals)[DictKey(ids[k])] == vals[k] {
        ToDictLast(ids, vals, k);
      }
      Run(docs.trace, Ok(ToDict(ids, vals)))
  }

  /** Each id of a completed fetch was hashable, and its stored document is the whole parsed answer to its GET. */
  lemma StoredAnswers(base: string, ids: seq<Json>, srv: Server, history: seq<Event>)
    requires GetEach(ids, id => ConfigUrl(base, id), Store, srv, history).result.Ok?
    ensures var r := GetEach(ids, id => ConfigUrl(base, id), Store, srv, history);
      forall k :: 0 <= k < |ids| ==>
        && Hashable(ids[k])
        && srv(history + r.trace[..k], Get(ConfigUrl(base, ids[k]))).Some?
        && r.result.value[k] == srv(history + r.trace[..k], Get(ConfigUrl(base, ids[k]))).value
  {
    var url := id => ConfigUrl(base, id);
    var r := GetEach(ids, url, Store, srv, history);
    GetEachAnswers(ids, url, Store, srv, history);
    forall k | 0 <= k < |ids|
      ensures Hashable(ids[k])
      ensures srv(history + r.trace[..k], Get(ConfigUrl(base, ids[k]))).Some?
      ensures r.result.value[k] == srv(history + r.trace[..k], Get(ConfigUrl(base, ids[k]))).value
    {
      assert Store(ids[k], srv(history + r.trace[..k], Get(url(ids[k]))).value) == Ok(r.result.value[k]);
    }
  }

  /**
   * A failed fetch stopped at its last GET, the first whose answer did not
   * parse or whose id could not be stored; every earlier id was stored.
   */
  lemma FetchConfigDataStops(base: string, ids: seq<Json>, srv: Server, history: seq<Event>)
    requires FetchConfigData(base, ids, srv, history).result.Err?
    ensures var r := FetchConfigData(base, ids, srv, history);
      0 < |r.trace| <= |ids| && StopsAt(ids, id => ConfigUrl(base, id), Store, srv, history, r.trace, r.result.fault)
  {
    GetEachErr(ids, id => ConfigUrl(base, id), Store, srv, history);
  }

  /** Lines 99-106, `main`: list, then fetch every document; no DELETE and no file write. */
  function BackupRun(base: string, srv: Server): (r: Run<map<Json, Json>>)
    ensures |r.trace| >= 1 && r.trace[0] == Get(base + ProfilesPath)
    ensures forall i :: 0 <= i < |r.trace| ==> r.trace[i].Get?
    ensures FetchIds(base, srv, []).result.Err? ==> r == Run([Get(base + ProfilesPath)], Err(FetchIds(base, srv, []).result.fault))
    ensures FetchIds(base, srv, []).result.Ok? ==>
      var d := FetchConfigData(base, FetchIds(base, srv, []).result.value, srv, [Get(base + ProfilesPath)]);
      r == Run([Get(base + ProfilesPath)] + d.trace, d.result)
  {
    var listing := FetchIds(base, srv, []);
    match listing.result
    case Err(e) => Run(listing.trace, Err(e))
    case Ok(ids) =>
      var data := FetchConfigData(base, ids, srv, listing.trace);
      Run(listing.trace + data.trace, data.result)
  }
}

=== FILE: clear_failures.dfy ===
/**
 * jamf/jhs_clear_failures.py: read the member devices of one smart group,
 * then ask the server to flush every device's failed MDM commands. The
 * server, group id and credentials are fixed in the script. All device ids
 * are collected before the first DELETE, and the DELETE replies are only
 * printed.
 */
module ClearFailures {
  import opened Json
  import opened PyText
  import opened Http
  import Envelope

  const BaseJss := "https://my.jamfcloud.com/JSSResource"
  const SmartGroupId := 185
  const GroupKey := "mobile_device_group"
  const DevicesKey := "mobile_devices"
  const FlushPrefix := BaseJss + "/commandflush/mobiledevices/id/"
  const FlushSuffix := "/status/Failed"

  /** Line 27: the group's detail URL, `str(185)` being the text `185`. */
  function GroupUrl(): (u: string)
    ensures u == BaseJss + "/mobiledevicegroups/id/185"
  {
    assert 185 / 10 == 18 && 185 % 10 == 5 && 18 / 10 == 1 && 18 % 10 == 8;
    assert DigitChar(1) == '1' && DigitChar(8) == '8' && DigitChar(5) == '5';
    assert NatToDecimal(1) == ['1'];
    assert NatToDecimal(18) == NatToDecimal(1) + ['8'];
    assert NatToDecimal(185) == NatToDecimal(18) + ['5'];
    BaseJss + "/mobiledevicegroups/id/" + Str(JInt(SmartGroupId))
  }

  /** Line 51: the flush URL of one device. */
  function FlushUrl(id: Json): string
  {
    FlushPrefix + Str(id) + FlushSuffix
  }

  /** The device id a flush URL names, when the part between prefix and suffix reads as an int. */
  function ParseFlushUrl(url: string): Option<int>
  {
    if |url| >= |FlushPrefix| + |FlushSuffix|
       && url[..|FlushPrefix|] == FlushPrefix
       && url[|url| - |FlushSuffix|..] == FlushSuffix
    then ParseInt(url[|FlushPrefix|..|url| - |FlushSuffix|])
    else None
  }

  /** An integer device id can be read back from its flush URL. */
  lemma FlushUrlRoundTrip(n: int)
    ensures ParseFlushUrl(FlushUrl(JInt(n))) == Some(n)
  {
    var d := IntToDecimal(n);
    var url := FlushUrl(JInt(n));
    assert url == FlushPrefix + d + FlushSuffix;
    assert url[..|FlushPrefix|] == FlushPrefix;
    assert url[|url| - |FlushSuffix|..] == FlushSuffix;
    assert url[|FlushPrefix|..|url| - |FlushSuffix|] == d;
    IntToDecimalRoundTrip(n);
  }

  /** Devices with distinct integer ids get distinct flush URLs. */
  lemma FlushUrlInjective(a: int, b: int)
    ensures FlushUrl(JInt(a)) == FlushUrl(JInt(b)) <==> a == b
  {
    FlushUrlRoundTrip(a);
    FlushUrlRoundTrip(b);
  }

  /**
   * Lines 40-46: `doc["mobile_device_group"]["mobile_devices"]`, walked by
   * index for each element's `id`.
   */
  function DeviceIds(doc: Json): (r: Result<seq<Json>>)
    ensures r.Ok? <==>
      && AtPath(doc, [GroupKey, DevicesKey]).Ok?
      && Envelope.Walkable(AtPath(doc, [GroupKey, DevicesKey]).value)
    ensures r.Ok? ==> Envelope.WalkYields(AtPath(doc, [GroupKey, DevicesKey]).value, r.value)
    ensures AtPath(doc, [GroupKey, DevicesKey]).Err? ==> r == Err(AtPath(doc, [GroupKey, DevicesKey]).fault)
    ensures doc.JObj? && GroupKey !in doc.fields ==> r == Err(KeyError(JStr(GroupKey)))
  {
    var group :- At(doc, GroupKey);
    var devices :- At(group, DevicesKey);
    assert AtPath(doc, [GroupKey, DevicesKey]) == Ok(devices) by {
      assert AtPath(devices, []) == Ok(devices);
      assert [DevicesKey][1..] == [];
      assert AtPath(group, [DevicesKey]) == Ok(devices);
      assert [GroupKey, DevicesKey][1..] == [DevicesKey];
    }
    Envelope.IdsOfList(devices, Envelope.ByIndex)
  }

  /** Lines 50-53: one DELETE per collected id, in order, duplicates included. */
  function Flushes(ids: seq<Json>): (r: seq<Event>)
    ensures |r| == |ids|
    ensures forall i :: 0 <= i < |ids| ==> r[i] == Delete(FlushUrl(ids[i]))
    decreases |ids|
  {
    if |ids| == 0 then []
    else [Delete(FlushUrl(ids[0]))] + Flushes(ids[1..])
  }

  /**
   * Lines 38-53: one GET of the group, then the flushes. A failure reading
   * the group or any of its devices ends the run before any DELETE.
   */
  function ClearFailures(srv: Server): (r: Run<seq<Json>>)
    ensures |r.trace| >= 1 && r.trace[0] == Get(GroupUrl())
    ensures forall i :: 1 <= i < |r.trace| ==> r.trace[i].Delete?
    ensures r.result.Err? ==> r.trace == [Get(GroupUrl())]
    ensures srv([], Get(GroupUrl())).None? ==> r == Run([Get(GroupUrl())], Err(BadResponse))
    ensures r.result.Ok? <==> srv([], Get(GroupUrl())).Some? && DeviceIds(srv([], Get(GroupUrl())).value).Ok?
    ensures r.result.Ok? ==>
      && Envelope.WalkYields(AtPath(srv([], Get(GroupUrl())).value, [GroupKey, DevicesKey]).value, r.result.value)
      && |r.trace| == |r.result.value| + 1
      && forall k :: 0 <= k < |r.result.value| ==> r.trace[k + 1] == Delete(FlushUrl(r.result.value[k]))
  {
    match Fetch(srv, [], GroupUrl())
    case Err(e) => Run([Get(GroupUrl())], Err(e))
    case Ok(doc) =>
      match DeviceIds(doc)
      case Err(e) => Run([Get(GroupUrl())], Err(e))
      case Ok(ids) => Run([Get(GroupUrl())] + Flushes(ids), Ok(ids))
  }

  /**
   * Every DELETE of a completed run names one device of the group, in the
   * group's order, and an integer id can be read back from its URL.
   */
  lemma {:induction false} FlushesNameDevices(srv: Server)
    requires ClearFailures(srv).result.Ok?
    ensures var r := ClearFailures(srv);
      && |DeletedUrls(r.trace)| == |r.result.value|
      && forall k :: 0 <= k < |r.result.value| ==>
        && DeletedUrls(r.trace)[k] == FlushUrl(r.result.value[k])
        && (r.result.value[k].JInt? ==> ParseFlushUrl(DeletedUrls(r.trace)[k]) == Some(r.result.value[k].n))
  {
    var r := ClearFailures(srv);
    var ids := r.result.value;
    var g := Get(GroupUrl());
    assert r.trace == [g] + Flushes(ids) by {
      var doc := srv([], g).value;
      assert Fetch(srv, [], GroupUrl()) == Ok(doc);
      assert DeviceIds(doc) == Ok(ids);
    }
    FlushesDeleted(ids);
    DeletedUrlsAppend([g], Flushes(ids));
    assert DeletedUrls([g]) == [];
    var urls := DeletedUrls(r.trace);
    assert urls == DeletedUrls(Flushes(ids));
    forall k | 0 <= k < |ids|
      ensures urls[k] == FlushUrl(ids[k])
      ensures ids[k].JInt? ==> ParseFlushUrl(urls[k]) == Some(ids[k].n)
    {
      if ids[k].JInt? {
        FlushUrlRoundTrip(ids[k].n);
      }
    }
  }

  /** The DELETE URLs of `Flushes(ids)` are the ids' flush URLs. */
  lemma {:induction false} FlushesDeleted(ids: seq<Json>)
    ensures |DeletedUrls(Flushes(ids))| == |ids|
    ensures forall k :: 0 <= k < |ids| ==> DeletedUrls(Flushes(ids))[k] == FlushUrl(ids[k])
    decreases |ids|
  {
    if |ids| > 0 {
      var d := Delete(FlushUrl(ids[0]));
      var rest := Flushes(ids[1..]);
      FlushesDeleted(ids[1..]);
      assert Flushes(ids) == [d] + rest;
      DeletedUrlsAppend([d], rest);
      assert DeletedUrls([d]) == [FlushUrl(ids[0])] by {
        assert [d][1..] == [];
      }
      var urls := DeletedUrls(Flushes(ids));
      assert urls == [FlushUrl(ids[0])] + DeletedUrls(rest);
      forall k | 1 <= k < |ids| ensures urls[k] == FlushUrl(ids[k]) {
        assert urls[k] == DeletedUrls(rest)[k - 1];
        assert ids[1..][k - 1] == ids[k];
      }
    }
  }

  /**
   * The DELETE replies are never read: two servers that answer the group GET
   * alike give the same run, whatever they answer to the flushes.
   */
  lemma FlushRepliesIgnored(srv1: Server, srv2: Server)
    requires srv1([], Get(GroupUrl())) == srv2([], Get(GroupUrl()))
    ensures ClearFailures(srv1) == ClearFailures(srv2)
  {
  }
}

=== FILE: delete_apps.dfy ===
/**
 * jamf/jamf_delete_apps.py: read application ids from a CSV file, then for
 * each id GET its detail, keep the parsed answer, and DELETE it; once the
 * loop is over, write the kept answers to a `.backup` file.
 *
 * The backup is written after every DELETE, not before: a GET whose answer
 * does not parse ends the run with the earlier applications already deleted
 * and no backup written at all.
 */
module DeleteApps {
  import opened Json
  import opened Http
  import opened PyText

  // ---------------------------------------------------------------- reading ids

  /**
   * The input file as `csv.DictReader` delivers it: either `open` fails, or
   * it yields its rows, the reading possibly failing with an IOError after
   * `failsAfter` rows.
   */
  datatype CsvFile =
    | Unopenable
    | Readable(rows: seq<map<string, string>>, failsAfter: Option<nat>)

  /** The number of rows read before the reading stopped. */
  function Delivered(file: CsvFile): nat
  {
    match file
    case Unopenable => 0
    case Readable(rows, failsAfter) =>
      if failsAfter.Some? && failsAfter.value < |rows| then failsAfter.value else |rows|
  }

  /** `[row["id"] for row in rows]`, raising KeyError at the first row without an id column. */
  function IdColumn(rows: seq<map<string, string>>): (r: Result<seq<string>>)
    ensures r.Ok? <==> forall i :: 0 <= i < |rows| ==> "id" in rows[i]
    ensures r.Ok? ==> |r.value| == |rows| && forall i :: 0 <= i < |rows| ==> r.value[i] == rows[i]["id"]
    ensures r.Err? ==> r.fault == KeyError(JStr("id"))
    decreases |rows|
  {
    if |rows| == 0 then Ok([])
    else if "id" !in rows[0] then Err(KeyError(JStr("id")))
    else
      match IdColumn(rows[1..])
      case Err(e) => Err(e)
      case Ok(rest) =>
        assert forall i :: 1 <= i < |rows| ==> rows[i] == rows[1..][i - 1];
        Ok([rows[0]["id"]] + rest)
  }

  /**
   * Lines 68-76, `ReadCSV`: the id column of the rows read, as strings, in
   * row order. An IOError is swallowed, leaving the ids read so far (none if
   * the file cannot be opened); a missing id column is not.
   */
  function ReadCsv(file: CsvFile): (r: Result<seq<string>>)
    ensures file.Unopenable? ==> r == Ok([])
    ensures file.Readable? ==> (r.Ok? <==> forall i :: 0 <= i < Delivered(file) ==> "id" in file.rows[i])
    ensures r.Ok? ==> |r.value| == Delivered(file)
    ensures r.Ok? && file.Readable? ==> forall i :: 0 <= i < |r.value| ==> r.value[i] == file.rows[i]["id"]
    ensures r.Err? ==> r.fault == KeyError(JStr("id"))
  {
    match file
    case Unopenable => Ok([])
    case Readable(rows, _) => IdColumn(rows[..Delivered(file)])
  }

  // ---------------------------------------------------------- the backup file

  /** Lines 56-60, `WriteArrayFile`: `show(item) + "\n"` for each item, in order. */
  function ArrayFileText<T>(items: seq<T>, show: T -> string): string
    decreases |items|
  {
    if |items| == 0 then ""
    else show(items[0]) + "\n" + ArrayFileText(items[1..], show)
  }

  /** The text a `WriteFile` event puts in the file: `"%s\n" % item` for each item. */
  function FileText(e: Event): string
    requires e.WriteFile?
  {
    ArrayFileText(e.items, Str)
  }

  /** The index of the first newline in `s`, or `|s|` when there is none. */
  function NewlineAt(s: string): (i: nat)
    ensures i <= |s|
    ensures i < |s| ==> s[i] == '\n'
    ensures forall j :: 0 <= j < i ==> s[j] != '\n'
    decreases |s|
  {
    if |s| == 0 then 0
    else if s[0] == '\n' then 0
    else 1 + NewlineAt(s[1..])
  }

  /** The lines of a text, each without its terminating newline. */
  function Lines(s: string): seq<string>
    decreases |s|
  {
    if |s| == 0 then []
    else
      var i := NewlineAt(s);
      if i == |s| then [s] else [s[..i]] + Lines(s[i + 1..])
  }

  /** Reading the written file back line by line gives one line per item, in order. */
  lemma {:induction false} ArrayFileLines<T>(items: seq<T>, show: T -> string)
    requires forall k :: 0 <= k < |items| ==> '\n' !in show(items[k])
    ensures Lines(ArrayFileText(items, show)) == seq(|items|, k requires 0 <= k < |items| => show(items[k]))
    decreases |items|
  {
    if |items| > 0 {
      var a := show(items[0]);
      var rest := ArrayFileText(items[1..], show);
      var text := a + "\n" + rest;
      assert text == ArrayFileText(items, show);
      assert forall j :: 0 <= j < |a| ==> text[j] == a[j];
      assert text[|a|] == '\n';
      assert NewlineAt(text) == |a|;
      assert text[..|a|] == a;
      assert text[|a| + 1..] == rest;
      ArrayFileLines(items[1..], show);
    }
  }

  /** The backup file, read back line by line, gives each kept answer's text on its own line. */
  lemma BackupFileLines(name: string, items: seq<Json>)
    requires forall k :: 0 <= k < |items| ==> '\n' !in Str(items[k])
    ensures Lines(FileText(WriteFile(name, items))) == seq(|items|, k requires 0 <= k < |items| => Str(items[k]))
  {
    ArrayFileLines(items, Str);
  }

  // --------------------------------------------------------- the delete loop

  /** The URL `DeleteApps` both GETs and DELETEs for one id. */
  function AppUrl(base: string, id: string): string
  {
    DetailUrl(base, AppsPath, JStr(id))
  }

  /** `GET u, DELETE u` for each id, in order. */
  function Pairs(base: string, ids: seq<string>): seq<Event>
    decreases |ids|
  {
    if |ids| == 0 then []
    else [Get(AppUrl(base, ids[0])), Delete(AppUrl(base, ids[0]))] + Pairs(base, ids[1..])
  }

  lemma {:induction false} PairsShape(base: string, ids: seq<string>)
    ensures |Pairs(base, ids)| == 2 * |ids|
    ensures forall k :: 0 <= k < |ids| ==>
      Pairs(base, ids)[2 * k] == Get(AppUrl(base, ids[k])) && Pairs(base, ids)[2 * k + 1] == Delete(AppUrl(base, ids[k]))
    decreases |ids|
  {
    if |ids| > 0 {
      PairsShape(base, ids[1..]);
      var p := Pairs(base, ids);
      forall k | 1 <= k < |ids|
        ensures p[2 * k] == Get(AppUrl(base, ids[k])) && p[2 * k + 1] == Delete(AppUrl(base, ids[k]))
      {
        assert ids[k] == ids[1..][k - 1];
        assert p[2 * k] == Pairs(base, ids[1..])[2 * (k - 1)];
      }
    }
  }

  lemma PairsPrefix(base: string, ids: seq<string>, k: nat)
    requires 1 <= k <= |ids|
    ensures Pairs(base, ids[..k]) == [Get(AppUrl(base, ids[0])), Delete(AppUrl(base, ids[0]))] + Pairs(base, ids[1..][..k - 1])
  {
    assert ids[..k][1..] == ids[1..][..k - 1];
  }

  lemma PairsNoWrite(base: string, ids: seq<string>)
    ensures forall i :: 0 <= i < |Pairs(base, ids)| ==> !Pairs(base, ids)[i].WriteFile?
  {
    PairsShape(base, ids);
    forall i | 0 <= i < |Pairs(base, ids)| ensures !Pairs(base, ids)[i].WriteFile? {
      var k := i / 2;
      assert i == 2 * k || i == 2 * k + 1;
    }
  }

  /** The DELETEs of `Pairs` go to the ids' URLs, one each, in order. */
  lemma {:induction false} PairsDeletes(base: string, ids: seq<string>)
    ensures DeletedUrls(Pairs(base, ids)) == seq(|ids|, j requires 0 <= j < |ids| => AppUrl(base, ids[j]))
    decreases |ids|
  {
    if |ids| > 0 {
      var u := AppUrl(base, ids[0]);
      PairsDeletes(base, ids[1..]);
      DeletedUrlsAppend([Get(u), Delete(u)], Pairs(base, ids[1..]));
      assert [Get(u), Delete(u)][1..] == [Delete(u)];
      assert DeletedUrls([Get(u), Delete(u)]) == [u];
    }
  }

  /** The trace of a loop that failed on the GET of `ids[k]`: the earlier pairs, then that GET. */
  function FailedAt(base: string, ids: seq<string>, k: nat): seq<Event>
    requires k < |ids|
  {
    Pairs(base, ids[..k]) + [Get(AppUrl(base, ids[k]))]
  }

  /** A failure one id further along is the first pair followed by the failure in the rest. */
  lemma FailedAtShift(base: string, ids: seq<string>, k: nat)
    requires k + 1 < |ids|
    ensures FailedAt(base, ids, k + 1) == [Get(AppUrl(base, ids[0])), Delete(AppUrl(base, ids[0]))] + FailedAt(base, ids[1..], k)
    ensures |FailedAt(base, ids, k)| == 2 * k + 1
  {
    PairsPrefix(base, ids, k + 1);
    assert ids[1..][k] == ids[k + 1];
    PairsShape(base, ids[..k]);
  }

  /** `trace` is the trace of a loop over `ids` that failed on some GET: an odd length locates it. */
  predicate FailsWith(base: string, ids: seq<string>, trace: seq<Event>)
  {
    |trace| % 2 == 1 && |trace| / 2 < |ids| && trace == FailedAt(base, ids, |trace| / 2)
  }

  /** A failure in the rest of the ids, after the first pair, is a failure of the whole loop. */
  lemma FailsWithShift(base: string, ids: seq<string>, trace: seq<Event>)
    requires |ids| > 0 && FailsWith(base, ids[1..], trace)
    ensures FailsWith(base, ids, [Get(AppUrl(base, ids[0])), Delete(AppUrl(base, ids[0]))] + trace)
  {
    var k := |trace| / 2;
    FailedAtShift(base, ids, k);
    assert |trace| == 2 * k + 1;
  }

  /** The parsed answer to the GET of `ids[k]`, sent after the pairs of the ids before it. */
  function Answer(base: string, ids: seq<string>, srv: Server, history: seq<Event>, k: nat): Option<Json>
    requires k < |ids|
  {
    srv(history + Pairs(base, ids[..k]), Get(AppUrl(base, ids[k])))
  }

  /**
   * Lines 82-88, the loop of `DeleteApps`: per id a GET, the parsed answer
   * appended to the backup list, then a DELETE of the same URL whose answer
   * is never looked at. An answer that does not parse ends the loop before
   * that id's DELETE.
   */
  function DeleteEach(ids: seq<string>, base: string, srv: Server, history: seq<Event>): (r: Run<seq<Json>>)
    ensures r.result.Ok? ==> r.trace == Pairs(base, ids) && |r.result.value| == |ids|
    ensures r.result.Err? ==>
      && r.result.fault == BadResponse
      && FailsWith(base, ids, r.trace)
    decreases |ids|
  {
    if |ids| == 0 then Run([], Ok([]))
    else
      var u := AppUrl(base, ids[0]);
      match srv(history, Get(u))
      case None =>
        assert FailedAt(base, ids, 0) == [Get(u)] by {
          assert Pairs(base, ids[..0]) == [];
        }
        Run([Get(u)], Err(BadResponse))
      case Some(doc) =>
        var rest := DeleteEach(ids[1..], base, srv, history + [Get(u), Delete(u)]);
        match rest.result
        case Ok(backup) =>
          Run([Get(u), Delete(u)] + rest.trace, Ok([doc] + backup))
        case Err(e) =>
          FailsWithShift(base, ids, rest.trace);
          Run([Get(u), Delete(u)] + rest.trace, Err(e))
  }

  /** When every GET parses, the loop issues every pair and keeps every answer, in order. */
  lemma {:induction false} DeleteEachCompletes(ids: seq<string>, base: string, srv: Server, history: seq<Event>)
    requires forall k :: 0 <= k < |ids| ==> Answer(base, ids, srv, history, k).Some?
    ensures DeleteEach(ids, base, srv, history).result.Ok?
    ensures var r := DeleteEach(ids, base, srv, history);
      forall k :: 0 <= k < |ids| ==> Answer(base, ids, srv, history, k) == Some(r.result.value[k])
    decreases |ids|
  {
    if |ids| > 0 {
      var u := AppUrl(base, ids[0]);
      var h := history + [Get(u), Delete(u)];
      assert Pairs(base, ids[..0]) == [];
      assert history + [] == history;
      forall k | 0 <= k < |ids[1..]| ensures Answer(base, ids[1..], srv, h, k) == Answer(base, ids, srv, history, k + 1) {
        PairsPrefix(base, ids, k + 1);
        assert history + Pairs(base, ids[..k + 1]) == h + Pairs(base, ids[1..][..k]);
      }
      DeleteEachCompletes(ids[1..], base, srv, h);
      assert srv(history, Get(u)) == Answer(base, ids, srv, history, 0);
      var rest := DeleteEach(ids[1..], base, srv, h);
      assert DeleteEach(ids, base, srv, history) == Run([Get(u), Delete(u)] + rest.trace, Ok([srv(history, Get(u)).value] + rest.result.value));
    }
  }

  /**
   * When the GET of `ids[k]` is the first whose answer does not parse, the
   * loop has sent the pairs of `ids[..k]` and that one GET, and fails.
   */
  lemma {:induction false} DeleteEachStopsAt(ids: seq<string>, base: string, srv: Server, history: seq<Event>, k: nat)
    requires k < |ids|
    requires forall j :: 0 <= j < k ==> Answer(base, ids, srv, history, j).Some?
    requires Answer(base, ids, srv, history, k).None?
    ensures DeleteEach(ids, base, srv, history) == Run(FailedAt(base, ids, k), Err(BadResponse))
    decreases |ids|
  {
    var u := AppUrl(base, ids[0]);
    var h := history + [Get(u), Delete(u)];
    assert Pairs(base, ids[..0]) == [];
    assert history + [] == history;
    assert srv(history, Get(u)) == Answer(base, ids, srv, history, 0);
    if k > 0 {
      forall j | 0 <= j < |ids[1..]| ensures Answer(base, ids[1..], srv, h, j) == Answer(base, ids, srv, history, j + 1) {
        PairsPrefix(base, ids, j + 1);
        assert history + Pairs(base, ids[..j + 1]) == h + Pairs(base, ids[1..][..j]);
      }
      DeleteEachStopsAt(ids[1..], base, srv, h, k - 1);
      var rest := DeleteEach(ids[1..], base, srv, h);
      assert rest.trace == FailedAt(base, ids[1..], k - 1);
      FailedAtShift(base, ids, k - 1);
      assert DeleteEach(ids, base, srv, history) == Run([Get(u), Delete(u)] + rest.trace, Err(BadResponse));
    } else {
      assert FailedAt(base, ids, 0) == [Get(u)];
      assert DeleteEach(ids, base, srv, history) == Run([Get(u)], Err(BadResponse));
    }
  }

  /**
   * Lines 81-89, `DeleteApps`: the loop, then the backup file named after
   * the run's timestamp (`stamp`, the str of a float clock reading), holding
   * one line per kept answer. A failed loop writes nothing.
   */
  function DeleteApps(ids: seq<string>, base: string, srv: Server, history: seq<Event>, stamp: string): (r: Run<()>)
    ensures r.result.Ok? ==>
      && |r.trace| == 2 * |ids| + 1
      && r.trace[..2 * |ids|] == Pairs(base, ids)
      && r.trace[2 * |ids|].WriteFile? && r.trace[2 * |ids|].name == stamp + ".backup"
      && |r.trace[2 * |ids|].items| == |ids|
    ensures r.result.Ok? ==> forall i :: 0 <= i < |r.trace| && r.trace[i].Delete? ==> i < 2 * |ids|
    ensures r.result.Err? ==> forall i :: 0 <= i < |r.trace| ==> !r.trace[i].WriteFile?
  {
    var loop := DeleteEach(ids, base, srv, history);
    match loop.result
    case Err(e) =>
      PairsNoWrite(base, ids[..|loop.trace| / 2]);
      Run(loop.trace, Err(e))
    case Ok(backup) =>
      var trace := loop.trace + [WriteFile(stamp + ".backup", backup)];
      PairsShape(base, ids);
      assert trace[..2 * |ids|] == Pairs(base, ids);
      Run(trace, Ok(()))
  }

  /**
   * When every GET parses: the trace is `GET u0, DELETE u0, GET u1, DELETE u1, ...`,
   * then the backup write, whose k-th item is the answer to the k-th GET.
   * Every DELETE comes before the backup exists.
   */
  lemma BackupAfterAllDeletes(ids: seq<string>, base: string, srv: Server, history: seq<Event>, stamp: string)
    requires forall k :: 0 <= k < |ids| ==> Answer(base, ids, srv, history, k).Some?
    ensures var r := DeleteApps(ids, base, srv, history, stamp);
      && r.result.Ok?
      && r.trace == Pairs(base, ids) + [WriteFile(stamp + ".backup", seq(|ids|, k requires 0 <= k < |ids| => Answer(base, ids, srv, history, k).value))]
      && DeletedUrls(r.trace) == seq(|ids|, j requires 0 <= j < |ids| => AppUrl(base, ids[j]))
  {
    DeleteEachCompletes(ids, base, srv, history);
    PairsDeletes(base, ids);
    DeletedUrlsAppend(Pairs(base, ids), [WriteFile(stamp + ".backup", DeleteEach(ids, base, srv, history).result.value)]);
    var loop := DeleteEach(ids, base, srv, history);
    assert loop.result.value == seq(|ids|, k requires 0 <= k < |ids| => Answer(base, ids, srv, history, k).value);
  }

  /**
   * When the GET of `ids[k]` is the first whose answer does not parse, the
   * applications `ids[..k]` have been deleted, in order, `ids[k]` has not,
   * and no backup of any of them was written.
   */
  lemma FailureLeavesNoBackup(ids: seq<string>, base: string, srv: Server, history: seq<Event>, stamp: string, k: nat)
    requires k < |ids|
    requires forall j :: 0 <= j < k ==> Answer(base, ids, srv, history, j).Some?
    requires Answer(base, ids, srv, history, k).None?
    ensures var r := DeleteApps(ids, base, srv, history, stamp);
      && r == Run(Pairs(base, ids[..k]) + [Get(AppUrl(base, ids[k]))], Err(BadResponse))
      && DeletedUrls(r.trace) == seq(k, j requires 0 <= j < k => AppUrl(base, ids[j]))
      && forall i :: 0 <= i < |r.trace| ==> !r.trace[i].WriteFile?
  {
    DeleteEachStopsAt(ids, base, srv, history, k);
    var p := Pairs(base, ids[..k]);
    var u := AppUrl(base, ids[k]);
    PairsDeletes(base, ids[..k]);
    DeletedUrlsAppend(p, [Get(u)]);
    assert DeletedUrls([Get(u)]) == [];
    assert DeletedUrls(p + [Get(u)]) == seq(k, j requires 0 <= j < k => AppUrl(base, ids[j]));
  }

  /** Two servers that answer every GET alike produce the same run: DELETE answers are never read. */
  lemma {:induction false} DeleteRepliesIgnored(ids: seq<string>, base: string, srv1: Server, srv2: Server, history: seq<Event>, stamp: string)
    requires forall h, u :: srv1(h, Get(u)) == srv2(h, Get(u))
    ensures DeleteEach(ids, base, srv1, history) == DeleteEach(ids, base, srv2, history)
    ensures DeleteApps(ids, base, srv1, history, stamp) == DeleteApps(ids, base, srv2, history, stamp)
    decreases |ids|
  {
    if |ids| > 0 {
      var u := AppUrl(base, ids[0]);
      DeleteRepliesIgnored(ids[1..], base, srv1, srv2, history + [Get(u), Delete(u)], stamp);
    }
  }

  /**
   * Lines 94-102, `main`: read the ids, then run the delete loop. A missing
   * id column raises before any request; an unreadable file gives no ids,
   * so the run only writes an empty backup file.
   */
  function DeleteRun(file: CsvFile, base: string, srv: Server, stamp: string): (r: Run<()>)
    ensures ReadCsv(file).Err? ==> r == Run([], Err(KeyError(JStr("id"))))
    ensures file.Unopenable? ==> r == Run([WriteFile(stamp + ".backup", [])], Ok(()))
    ensures r.result.Ok? ==>
      && ReadCsv(file).Ok?
      && |r.trace| == 2 * Delivered(file) + 1
      && r.trace[..2 * Delivered(file)] == Pairs(base, ReadCsv(file).value)
      && r.trace[2 * Delivered(file)].WriteFile?
      && r.trace[2 * Delivered(file)].name == stamp + ".backup"
    ensures ReadCsv(file).Ok? ==> r == DeleteApps(ReadCsv(file).value, base, srv, [], stamp)
  {
    match ReadCsv(file)
    case Err(e) => Run([], Err(e))
    case Ok(ids) => DeleteApps(ids, base, srv, [], stamp)
  }
}

=== FILE: envelope.dfy ===
/**
 * Reading the ids out of a collection envelope `{"<key>": [{"id": ...}, ...]}`:
 * the walk every `FetchIDS` performs, and the one the failure-flush script
 * performs on a device group.
 */
module Envelope {
  import opened Json
  import opened Http

  /** `for x in range(len(l)): l[x]` or `for e in l`. */
  datatype Walk = ByIndex | ByIteration

  predicate HasId(e: Json)
  {
    e.JObj? && "id" in e.fields
  }

  /** `ids` are the `id` members of `elems`, one for one and in order. */
  predicate IdsMatch(ids: seq<Json>, elems: seq<Json>)
  {
    && |ids| == |elems|
    && forall i :: 0 <= i < |elems| ==> HasId(elems[i]) && elems[i].fields["id"] == ids[i]
  }

  /** Whether a walk of `coll` for ids completes: a list of objects with an id, or an empty str or dict. */
  predicate Walkable(coll: Json)
  {
    match coll
    case JArr(items) => forall i :: 0 <= i < |items| ==> HasId(items[i])
    case JStr(s) => s == []
    case JObj(m) => m == map[]
    case _ => false
  }

  /** `ids` is what a completed walk of `coll` yields. */
  predicate WalkYields(coll: Json, ids: seq<Json>)
  {
    && Walkable(coll)
    && (coll.JArr? ==> IdsMatch(ids, coll.items))
    && (!coll.JArr? ==> ids == [])
  }

  /**
   * The values a walk of `coll` visits. A str yields its one-character
   * strings. A non-empty dict fails: `d[0]` raises KeyError, and iterating
   * it yields str keys whose `["id"]` raises TypeError.
   */
  function Elements(coll: Json, walk: Walk): Result<seq<Json>>
  {
    match coll
    case JArr(xs) => Ok(xs)
    case JStr(s) => Ok(seq(|s|, i requires 0 <= i < |s| => JStr([s[i]])))
    case JObj(m) =>
      if m == map[] then Ok([])
      else if walk == ByIndex then Err(KeyError(JInt(0)))
      else Err(TypeError)
    case _ => Err(TypeError)
  }

  /** `[e["id"] for e in elems]`, raising at the first element without an id. */
  function IdsOf(elems: seq<Json>): (r: Result<seq<Json>>)
    ensures r.Ok? <==> forall i :: 0 <= i < |elems| ==> HasId(elems[i])
    ensures r.Ok? ==> IdsMatch(r.value, elems)
    ensures r.Err? ==>
      exists i :: 0 <= i < |elems| && At(elems[i], "id") == Err(r.fault) && forall j :: 0 <= j < i ==> HasId(elems[j])
    decreases |elems|
  {
    if |elems| == 0 then Ok([])
    else
      var id :- At(elems[0], "id");
      var rest :- IdsOf(elems[1..]);
      assert forall i :: 1 <= i < |elems| ==> elems[i] == elems[1..][i - 1];
      Ok([id] + rest)
  }

  /** The ids a walk of `coll` collects, or the exception it raises. */
  function IdsOfList(coll: Json, walk: Walk): (r: Result<seq<Json>>)
    ensures r.Ok? <==> Walkable(coll)
    ensures r.Ok? ==> WalkYields(coll, r.value)
    ensures coll.JObj? && coll.fields != map[] ==> r == Err(if walk == ByIndex then KeyError(JInt(0)) else TypeError)
    ensures coll.JStr? && coll.s != [] ==> r == Err(TypeError)
    ensures coll.JNull? || coll.JBool? || coll.JInt? ==> r == Err(TypeError)
  {
    var elems :- Elements(coll, walk);
    assert coll.JStr? ==> forall i :: 0 <= i < |elems| ==> !HasId(elems[i]);
    IdsOf(elems)
  }

  /** `doc[key]` walked for ids. */
  function IdsIn(doc: Json, key: string, walk: Walk): (r: Result<seq<Json>>)
    ensures r.Ok? <==> doc.JObj? && key in doc.fields && Walkable(doc.fields[key])
    ensures r.Ok? ==> WalkYields(doc.fields[key], r.value)
    ensures doc.JObj? && key !in doc.fields ==> r == Err(KeyError(JStr(key)))
    ensures !doc.JObj? ==> r == Err(TypeError)
  {
    var coll :- At(doc, key);
    IdsOfList(coll, walk)
  }

  /** `response` is an envelope whose list under `key` yields `ids`. */
  predicate Lists(response: Option<Json>, key: string, ids: seq<Json>)
  {
    && response.Some?
    && response.value.JObj?
    && key in response.value.fields
    && WalkYields(response.value.fields[key], ids)
  }

  /** Whether `response` is an envelope whose list under `key` can be walked. */
  predicate Listable(response: Option<Json>, key: string)
  {
    && response.Some?
    && response.value.JObj?
    && key in response.value.fields
    && Walkable(response.value.fields[key])
  }

  /**
   * `FetchIDS`: one GET of the collection URL, then the walk of the list
   * under `key`. There is no pagination: the one answer is the whole set.
   */
  function FetchIds(url: string, key: string, walk: Walk, srv: Server, history: seq<Event>): (r: Run<seq<Json>>)
    ensures r.trace == [Get(url)]
    ensures r.result.Ok? <==> Listable(srv(history, Get(url)), key)
    ensures r.result.Ok? ==> Lists(srv(history, Get(url)), key, r.result.value)
    ensures srv(history, Get(url)).None? ==> r.result == Err(BadResponse)
    ensures srv(history, Get(url)).Some? && srv(history, Get(url)).value.JObj? && key !in srv(history, Get(url)).value.fields ==>
      r.result == Err(KeyError(JStr(key)))
  {
    match Fetch(srv, history, url)
    case Err(e) => Run([Get(url)], Err(e))
    case Ok(doc) => Run([Get(url)], IdsIn(doc, key, walk))
  }
}

=== FILE: export_apps.dfy ===
/**
 * jamf/jamf_export_apps.py: list every mobile device application, fetch
 * each one's detail, project it into a row, and hand the rows to the CSV
 * writer.
 */
module ExportApps {
  import opened Json
  import opened Http
  import opened Rows
  import Envelope

  const ListKey := "mobile_device_applications"
  const Root := "mobile_device_application"

  /** The header `main` gives the CSV writer, in order. */
  const CsvColumns: seq<string> := [
    "id", "name", "display_name", "bundle_id", "version", "scope", "scope_all",
    "scope_all_users", "vpp_on", "vpp_licenses", "vpp_licenses_used", "vpp_licenses_remaining"
  ]

  /** The columns every row gets, in assignment order. */
  const AppFields: seq<Field> := [
    Field("id", [Root, "general", "id"]),
    Field("name", [Root, "general", "name"]),
    Field("display_name", [Root, "general", "display_name"]),
    Field("bundle_id", [Root, "general", "bundle_id"]),
    Field("version", [Root, "general", "version"]),
    Field("scope", [Root, "scope", "mobile_device_groups"]),
    Field("scope_all", [Root, "scope", "all_mobile_devices"]),
    Field("scope_all_users", [Root, "scope", "all_jss_users"]),
    Field("vpp_on", [Root, "vpp", "assign_vpp_device_based_licenses"])
  ]

  /** The licence columns a row gets only when `vpp_on == True`. */
  const VppFields: seq<Field> := [
    Field("vpp_licenses", [Root, "vpp", "total_vpp_licenses"]),
    Field("vpp_licenses_used", [Root, "vpp", "used_vpp_licenses"]),
    Field("vpp_licenses_remaining", [Root, "vpp", "remaining_vpp_licenses"])
  ]

  const FlagPath: seq<string> := [Root, "vpp", "assign_vpp_device_based_licenses"]

  /** The document's licensing flag exists and `== True` (so `1` counts too). */
  predicate VppOn(doc: Json)
  {
    AtPath(doc, FlagPath).Ok? && IsTrue(AtPath(doc, FlagPath).value)
  }

  function CsvColumnSet(): set<string>
  {
    set c | c in CsvColumns
  }

  /** Every key of `row` is a column of the CSV header. */
  predicate InHeader(row: Row)
  {
    row.Keys <= CsvColumnSet()
  }

  /** No column appears twice in the header. */
  lemma HeaderDistinct()
    ensures forall i, j :: 0 <= i < j < |CsvColumns| ==> CsvColumns[i] != CsvColumns[j]
  {
    forall i, j | 0 <= i < j < |CsvColumns| ensures CsvColumns[i] != CsvColumns[j] {
      assert i in {0, 1, 2, 3, 4, 5, 6, 7, 8, 9, 10, 11};
    }
  }

  /** The base table assigns the header's first nine columns and the licence table its last three, in order. */
  lemma TablesFollowHeader()
    ensures forall i :: 0 <= i < |AppFields| ==> AppFields[i].column == CsvColumns[i]
    ensures forall j :: 0 <= j < |VppFields| ==> VppFields[j].column == CsvColumns[|AppFields| + j]
  {
    forall i | 0 <= i < |AppFields| ensures AppFields[i].column == CsvColumns[i] {
      assert i in {0, 1, 2, 3, 4, 5, 6, 7, 8};
    }
    forall j | 0 <= j < |VppFields| ensures VppFields[j].column == CsvColumns[|AppFields| + j] {
      assert j in {0, 1, 2};
    }
  }

  lemma TablesDistinct()
    ensures DistinctColumns(AppFields) && DistinctColumns(VppFields)
    ensures ColumnsOf(AppFields) !! ColumnsOf(VppFields)
  {
    HeaderDistinct();
    TablesFollowHeader();
    forall c | c in ColumnsOf(AppFields) ensures c !in ColumnsOf(VppFields) {
      var i :| 0 <= i < |AppFields| && AppFields[i].column == c;
      forall j | 0 <= j < |VppFields| ensures VppFields[j].column != c {
        assert CsvColumns[i] != CsvColumns[|AppFields| + j];
      }
    }
  }

  /** The always-present columns are nine of the header's twelve; the licence columns are the other three. */
  lemma TablesCoverHeader()
    ensures |ColumnsOf(AppFields)| == 9 && |ColumnsOf(VppFields)| == 3
    ensures ColumnsOf(AppFields) !! ColumnsOf(VppFields)
    ensures ColumnsOf(AppFields) + ColumnsOf(VppFields) == CsvColumnSet()
  {
    TablesDistinct();
    TablesFollowHeader();
    ColumnCount(AppFields);
    ColumnCount(VppFields);
    forall c | c in CsvColumnSet() ensures c in ColumnsOf(AppFields) + ColumnsOf(VppFields) {
      var k :| 0 <= k < |CsvColumns| && CsvColumns[k] == c;
      if k < |AppFields| {
        assert AppFields[k].column == c;
      } else {
        assert VppFields[k - |AppFields|].column == c;
      }
    }
    forall c | c in ColumnsOf(AppFields) + ColumnsOf(VppFields) ensures c in CsvColumnSet() {
      if c in ColumnsOf(AppFields) {
        var i :| 0 <= i < |AppFields| && AppFields[i].column == c;
        assert CsvColumns[i] == c;
      } else {
        var j :| 0 <= j < |VppFields| && VppFields[j].column == c;
        assert CsvColumns[|AppFields| + j] == c;
      }
    }
  }

  /** Adding the licence columns to a base row fills the whole header, keeping the copied values. */
  lemma MergeVpp(doc: Json, row: Row, extra: Row)
    requires row.Keys == ColumnsOf(AppFields) && Copies(row, doc, AppFields)
    requires extra.Keys == ColumnsOf(VppFields) && Copies(extra, doc, VppFields)
    ensures (row + extra).Keys == CsvColumnSet() && |row + extra| == 12
    ensures Copies(row + extra, doc, AppFields) && Copies(row + extra, doc, VppFields)
  {
    TablesDistinct();
    TablesCoverHeader();
    assert (row + extra).Keys == row.Keys + extra.Keys;
    assert |row.Keys + extra.Keys| == |row.Keys| + |extra.Keys|;
    forall i | 0 <= i < |AppFields| ensures AppFields[i].column !in extra {
      assert AppFields[i].column in ColumnsOf(AppFields);
    }
  }

  /** The flag lies inside the `vpp` object: without the object there is no flag. */
  lemma VppPrefix(doc: Json)
    ensures AtPath(doc, [Root, "vpp"]).Err? ==> AtPath(doc, AppFields[8].path).Err?
  {
    assert AppFields[8].path == FlagPath;
    assert FlagPath[1..] == ["vpp", "assign_vpp_device_based_licenses"];
    assert [Root, "vpp"][1..] == ["vpp"];
    assert ["vpp", "assign_vpp_device_based_licenses"][1..] == ["assign_vpp_device_based_licenses"];
    assert ["vpp"][1..] == [];
    match At(doc, Root)
    case Err(_) =>
    case Ok(app) =>
      match At(app, "vpp")
      case Err(_) =>
      case Ok(vpp) =>
        assert AtPath(vpp, []) == Ok(vpp);
        assert AtPath(app, ["vpp"]) == Ok(vpp);
        assert AtPath(doc, [Root, "vpp"]) == Ok(vpp);
  }

  /**
   * Lines 79-92: the row for one detail document. The nine base columns are
   * always read (the `vpp` object included); the three licence columns are
   * read and added only when the flag `== True`. A document without the
   * `vpp` object yields no row, whatever the flag would have been.
   */
  function ProjectApp(doc: Json): (r: Result<Row>)
    ensures r.Ok? <==> Resolves(doc, AppFields) && (VppOn(doc) ==> Resolves(doc, VppFields))
    ensures r.Ok? ==> Copies(r.value, doc, AppFields)
    ensures r.Ok? && VppOn(doc) ==> Copies(r.value, doc, VppFields) && r.value.Keys == CsvColumnSet()
    ensures r.Ok? && !VppOn(doc) ==> r.value.Keys == ColumnsOf(AppFields) && "vpp_licenses" !in r.value
    ensures r.Ok? ==> r.value.Keys <= CsvColumnSet()
    ensures r.Ok? ==> |r.value| == if VppOn(doc) then 12 else 9
    ensures AtPath(doc, [Root, "vpp"]).Err? ==> r.Err?
    ensures r.Err? ==>
      || (exists i :: FirstFailure(doc, AppFields, i, r.fault))
      || (Resolves(doc, AppFields) && VppOn(doc) && exists i :: FirstFailure(doc, VppFields, i, r.fault))
  {
    TablesDistinct();
    TablesCoverHeader();
    VppPrefix(doc);
    match Project(doc, AppFields)
    case Err(e) => Err(e)
    case Ok(row) =>
      assert AppFields[8].column == "vpp_on" && AppFields[8].path == FlagPath;
      if IsTrue(row["vpp_on"]) then
        match Project(doc, VppFields)
        case Err(e) => Err(e)
        case Ok(extra) =>
          MergeVpp(doc, row, extra);
          Ok(row + extra)
      else
        assert VppFields[0].column == "vpp_licenses";
        assert "vpp_licenses" !in ColumnsOf(AppFields);
        Ok(row)
  }

  /** Lines 58-67: one GET of the application list; the ids of its elements in server order. */
  function FetchIds(base: string, srv: Server, history: seq<Event>): (r: Run<seq<Json>>)
    ensures r.trace == [Get(base + AppsPath)]
    ensures r.result.Ok? <==> Envelope.Listable(srv(history, Get(base + AppsPath)), ListKey)
    ensures r.result.Ok? ==> Envelope.Lists(srv(history, Get(base + AppsPath)), ListKey, r.result.value)
    ensures srv(history, Get(base + AppsPath)).Some? && srv(history, Get(base + AppsPath)).value.JObj? && ListKey !in srv(history, Get(base + AppsPath)).value.fields ==>
      r.result == Err(KeyError(JStr(ListKey)))
  {
    Envelope.FetchIds(base + AppsPath, ListKey, Envelope.ByIndex, srv, history)
  }

  /** The detail URL of one application. */
  function AppUrl(base: string, id: Json): string
  {
    DetailUrl(base, AppsPath, id)
  }

  /**
   * Lines 73-94: one GET per id, in order, each answer projected into a row;
   * the first exception ends the loop.
   */
  function FetchAppInfo(base: string, ids: seq<Json>, srv: Server, history: seq<Event>): (r: Run<seq<Row>>)
    ensures |r.trace| <= |ids|
    ensures forall k :: 0 <= k < |r.trace| ==> r.trace[k] == Get(AppUrl(base, ids[k]))
    ensures r.result.Ok? ==> |r.trace| == |ids| == |r.result.value|
    ensures r.result.Ok? ==> Answers(ids, id => AppUrl(base, id), (id, doc) => ProjectApp(doc), srv, history, r.trace, r.result.value)
    ensures r.result.Ok? ==> forall k :: 0 <= k < |ids| ==> InHeader(r.result.value[k])
    ensures r.result.Err? ==> 0 < |r.trace|
    ensures r.result.Err? ==> StopsAt(ids, id => AppUrl(base, id), (id, doc) => ProjectApp(doc), srv, history, r.trace, r.result.fault)
  {
    var url := id => AppUrl(base, id);
    var f := (id, doc) => ProjectApp(doc);
    var r := GetEach(ids, url, f, srv, history);
    if r.result.Ok? then
      GetEachAnswers(ids, url, f, srv, history);
      r
    else
      GetEachErr(ids, url, f, srv, history);
      r
  }

  /** Lines 115-125, `main`: list, fetch and project, then write the CSV. */
  function ExportRun(base: string, csvFile: string, srv: Server): (r: Run<()>)
    ensures |r.trace| >= 1 && r.trace[0] == Get(base + AppsPath)
    ensures r.result.Ok? ==>
      var last := r.trace[|r.trace| - 1];
      && last.WriteCsv? && last.name == csvFile && last.columns == CsvColumns
      && |last.rows| == |r.trace| - 2
      && forall k :: 0 <= k < |last.rows| ==> InHeader(last.rows[k])
    ensures r.result.Ok? ==>
      && FetchIds(base, srv, []).result.Ok?
      && var ids := FetchIds(base, srv, []).result.value;
         var info := FetchAppInfo(base, ids, srv, [Get(base + AppsPath)]);
         && info.result.Ok?
         && r.trace == [Get(base + AppsPath)] + info.trace + [WriteCsv(csvFile, CsvColumns, info.result.value)]
  {
    var listing := FetchIds(base, srv, []);
    match listing.result
    case Err(e) => Run(listing.trace, Err(e))
    case Ok(ids) =>
      var info := FetchAppInfo(base, ids, srv, listing.trace);
      var trace := listing.trace + info.trace;
      match info.result
      case Err(e) => Run(trace, Err(e))
      case Ok(rows) => Run(trace + [WriteCsv(csvFile, CsvColumns, rows)], Ok(()))
  }

  /** A run only reads from the server: every event before the CSV write is a GET, and nothing is deleted. */
  lemma ExportRunReadsOnly(base: string, csvFile: string, srv: Server)
    ensures var r := ExportRun(base, csvFile, srv);
      && (forall i :: 0 <= i < |r.trace| ==> !r.trace[i].Delete?)
      && (forall i :: 0 <= i < |r.trace| - 1 ==> r.trace[i].Get?)
      && (r.result.Err? ==> forall i :: 0 <= i < |r.trace| ==> r.trace[i].Get?)
  {
    var listing := FetchIds(base, srv, []);
    if listing.result.Ok? {
      var info := FetchAppInfo(base, listing.result.value, srv, listing.trace);
      var gets := listing.trace + info.trace;
      assert forall i :: 0 <= i < |gets| ==> gets[i].Get? by {
        forall i | 0 <= i < |gets| ensures gets[i].Get? {
          if i > 0 {
            assert gets[i] == info.trace[i - 1];
          }
        }
      }
    }
  }
}

=== FILE: export_config_profiles.dfy ===
/**
 * jamf/jamf_export_config_profiles.py: list every configuration profile,
 * fetch each one's detail, project five fields into a row, and hand the
 * rows to the CSV writer.
 */
module ExportProfiles {
  import opened Json
  import opened Http
  import opened Rows
  import Envelope

  const ListKey := "configuration_profiles"
  const Root := "configuration_profile"

  /** The header `main` gives the CSV writer, in order. */
  const CsvColumns: seq<string> := ["id", "name", "scope", "scope_all", "scope_all_users"]

  /** The five columns of a row, in assignment order. */
  const ProfileFields: seq<Field> := [
    Field("id", [Root, "general", "id"]),
    Field("name", [Root, "general", "name"]),
    Field("scope", [Root, "scope", "mobile_device_groups"]),
    Field("scope_all", [Root, "scope", "all_mobile_devices"]),
    Field("scope_all_users", [Root, "scope", "all_jss_users"])
  ]

  function CsvColumnSet(): set<string>
  {
    set c | c in CsvColumns
  }

  /** The keys of `row` are exactly the CSV header's columns. */
  predicate FillsHeader(row: Row)
  {
    row.Keys == CsvColumnSet()
  }

  /** The table fills exactly the header's five columns, each once. */
  lemma TableMatchesHeader()
    ensures DistinctColumns(ProfileFields)
    ensures ColumnsOf(ProfileFields) == CsvColumnSet()
    ensures |ColumnsOf(ProfileFields)| == 5
  {
    forall c | c in ColumnsOf(ProfileFields) ensures c in CsvColumnSet() {
      var i :| 0 <= i < |ProfileFields| && ProfileFields[i].column == c;
      assert i in {0, 1, 2, 3, 4};
    }
    forall i | 0 <= i < |ProfileFields| ensures ProfileFields[i].column in ColumnsOf(ProfileFields) { }
    assert ProfileFields[0].column == "id" && ProfileFields[1].column == "name";
    assert ProfileFields[2].column == "scope" && ProfileFields[3].column == "scope_all";
    assert ProfileFields[4].column == "scope_all_users";
    ColumnCount(ProfileFields);
  }

  /**
   * Lines 79-84: the row for one detail document. Every one of the five
   * paths must exist; the row then has exactly the header's columns, each
   * holding the document's value unchanged.
   */
  function ProjectProfile(doc: Json): (r: Result<Row>)
    ensures r.Ok? <==> Resolves(doc, ProfileFields)
    ensures r.Ok? ==> Copies(r.value, doc, ProfileFields)
    ensures r.Ok? ==> r.value.Keys == CsvColumnSet() && |r.value| == 5
    ensures r.Err? ==> exists i :: FirstFailure(doc, ProfileFields, i, r.fault)
  {
    TableMatchesHeader();
    Project(doc, ProfileFields)
  }

  /** Lines 58-67: one GET of the profile list; the ids of its elements in server order. */
  function FetchIds(base: string, srv: Server, history: seq<Event>): (r: Run<seq<Json>>)
    ensures r.trace == [Get(base + ProfilesPath)]
    ensures r.result.Ok? <==> Envelope.Listable(srv(history, Get(base + ProfilesPath)), ListKey)
    ensures r.result.Ok? ==> Envelope.Lists(srv(history, Get(base + ProfilesPath)), ListKey, r.result.value)
    ensures srv(history, Get(base + ProfilesPath)).Some? && srv(history, Get(base + ProfilesPath)).value.JObj? && ListKey !in srv(history, Get(base + ProfilesPath)).value.fields ==>
      r.result == Err(KeyError(JStr(ListKey)))
  {
    Envelope.FetchIds(base + ProfilesPath, ListKey, Envelope.ByIndex, srv, history)
  }

  /** The detail URL of one profile. */
  function ProfileUrl(base: string, id: Json): string
  {
    DetailUrl(base, ProfilesPath, id)
  }

  /**
   * Lines 73-86: one GET per id, in order, each answer projected into a row;
   * the first exception ends the loop.
   */
  function FetchConfInfo(base: string, ids: seq<Json>, srv: Server, history: seq<Event>): (r: Run<seq<Row>>)
    ensures |r.trace| <= |ids|
    ensures forall k :: 0 <= k < |r.trace| ==> r.trace[k] == Get(ProfileUrl(base, ids[k]))
    ensures r.result.Ok? ==> |r.trace| == |ids| == |r.result.value|
    ensures r.result.Ok? ==> Answers(ids, id => ProfileUrl(base, id), (id, doc) => ProjectProfile(doc), srv, history, r.trace, r.result.value)
    ensures r.result.Ok? ==> forall k :: 0 <= k < |ids| ==> FillsHeader(r.result.value[k])
    ensures r.result.Err? ==> 0 < |r.trace|
    ensures r.result.Err? ==> StopsAt(ids, id => ProfileUrl(base, id), (id, doc) => ProjectProfile(doc), srv, history, r.trace, r.result.fault)
  {
    var url := id => ProfileUrl(base, id);
    var f := (id, doc) => ProjectProfile(doc);
    var r := GetEach(ids, url, f, srv, history);
    if r.result.Ok? then
      GetEachAnswers(ids, url, f, srv, history);
      r
    else
      GetEachErr(ids, url, f, srv, history);
      r
  }

  /** Lines 107-117, `main`: list, fetch and project, then write the CSV. */
  function ExportRun(base: string, csvFile: string, srv: Server): (r: Run<()>)
    ensures |r.trace| >= 1 && r.trace[0] == Get(base + ProfilesPath)
    ensures r.result.Ok? ==>
      var last := r.trace[|r.trace| - 1];
      && last.WriteCsv? && last.name == csvFile && last.columns == CsvColumns
      && |last.rows| == |r.trace| - 2
      && forall k :: 0 <= k < |last.rows| ==> FillsHeader(last.rows[k])
    ensures r.result.Ok? ==>
      && FetchIds(base, srv, []).result.Ok?
      && var ids := FetchIds(base, srv, []).result.value;
         var info := FetchConfInfo(base, ids, srv, [Get(base + ProfilesPath)]);
         && info.result.Ok?
         && r.trace == [Get(base + ProfilesPath)] + info.trace + [WriteCsv(csvFile, CsvColumns, info.result.value)]
  {
    var listing := FetchIds(base, srv, []);
    match listing.result
    case Err(e) => Run(listing.trace, Err(e))
    case Ok(ids) =>
      var info := FetchConfInfo(base, ids, srv, listing.trace);
      var trace := listing.trace + info.trace;
      match info.result
      case Err(e) => Run(trace, Err(e))
      case Ok(rows) => Run(trace + [WriteCsv(csvFile, CsvColumns, rows)], Ok(()))
  }

  /** A run only reads from the server: every event before the CSV write is a GET, and nothing is deleted. */
  lemma ExportRunReadsOnly(base: string, csvFile: string, srv: Server)
    ensures var r := ExportRun(base, csvFile, srv);
      && (forall i :: 0 <= i < |r.trace| ==> !r.trace[i].Delete?)
      && (forall i :: 0 <= i < |r.trace| - 1 ==> r.trace[i].Get?)
      && (r.result.Err? ==> forall i :: 0 <= i < |r.trace| ==> r.trace[i].Get?)
  {
    var listing := FetchIds(base, srv, []);
    if listing.result.Ok? {
      var info := FetchConfInfo(base, listing.result.value, srv, listing.trace);
      var gets := listing.trace + info.trace;
      assert forall i :: 0 <= i < |gets| ==> gets[i].Get? by {
        forall i | 0 <= i < |gets| ensures gets[i].Get? {
          if i > 0 {
            assert gets[i] == info.trace[i - 1];
          }
        }
      }
    }
  }
}

=== FILE: http.dfy ===
/**
 * The HTTP session as an oracle and the scripts' effects as a trace.
 *
 * A run is the ordered list of requests it sends and files it writes. The
 * server is a function from the requests sent so far and the next request
 * to the parsed body of its answer (`None` when the request fails or the
 * body is not JSON); because it sees the history, a DELETE may change what
 * later GETs return.
 */
module Http {
  import opened Json
  import opened PyText

  /** A flat export row: column name to value. */
  type Row = map<string, Json>

  datatype Event =
    | Get(url: string)
    | Delete(url: string)
    | WriteFile(name: string, items: seq<Json>)                  // one line per item
    | WriteCsv(name: string, columns: seq<string>, rows: seq<Row>)

  type Server = (seq<Event>, Event) -> Option<Json>

  /** The events a step issued, and what it returned or the exception it raised. */
  datatype Run<+T> = Run(trace: seq<Event>, result: Result<T>)

  const AppsPath := "/JSSResource/mobiledeviceapplications"
  const ProfilesPath := "/JSSResource/configurationprofiles"

  /** `base + collection + "/id/" + str(id)`, the detail endpoint of one resource. */
  function DetailUrl(base: string, collection: string, id: Json): string
  {
    base + collection + "/id/" + Str(id)
  }

  /** The URLs the trace sends DELETE requests to, in order. */
  function DeletedUrls(trace: seq<Event>): seq<string>
    decreases |trace|
  {
    if |trace| == 0 then []
    else (if trace[0].Delete? then [trace[0].url] else []) + DeletedUrls(trace[1..])
  }

  lemma {:induction false} DeletedUrlsAppend(a: seq<Event>, b: seq<Event>)
    ensures DeletedUrls(a + b) == DeletedUrls(a) + DeletedUrls(b)
    decreases |a|
  {
    if |a| == 0 {
      assert a + b == b;
    } else {
      assert (a + b)[1..] == a[1..] + b;
      DeletedUrlsAppend(a[1..], b);
    }
  }

  /** `json.loads(session.get(url).text)` for a GET sent after `history`. */
  function Fetch(srv: Server, history: seq<Event>, url: string): Result<Json>
  {
    match srv(history, Get(url))
    case Some(doc) => Ok(doc)
    case None => Err(BadResponse)
  }

  /** Fetch the detail of `x` and hand it to `f`, which may raise. */
  function Step<X, T>(srv: Server, history: seq<Event>, x: X, url: X -> string, f: (X, Json) -> Result<T>): Result<T>
  {
    var doc :- Fetch(srv, history, url(x));
    f(x, doc)
  }

  /**
   * The loop `for x in items: out.append(f(x, json.loads(session.get(url(x)).text)))`:
   * one GET per item, in order, stopping at the first exception.
   */
  function GetEach<X, T>(items: seq<X>, url: X -> string, f: (X, Json) -> Result<T>, srv: Server, history: seq<Event>): (r: Run<seq<T>>)
    ensures |r.trace| <= |items|
    ensures forall k :: 0 <= k < |r.trace| ==> r.trace[k] == Get(url(items[k]))
    ensures r.result.Ok? ==> |r.trace| == |items| == |r.result.value|
    ensures r.result.Err? ==> 0 < |r.trace|
    decreases |items|
  {
    if |items| == 0 then Run([], Ok([]))
    else
      var first := Get(url(items[0]));
      match Step(srv, history, items[0], url, f)
      case Err(e) => Run([first], Err(e))
      case Ok(v) =>
        var rest := GetEach(items[1..], url, f, srv, history + [first]);
        match rest.result
        case Ok(vs) => Run([first] + rest.trace, Ok([v] + vs))
        case Err(e) => Run([first] + rest.trace, Err(e))
  }

  /** What the k-th iteration of `GetEach` saw: the answer to its GET, given the requests before it. */
  function StepAt<X, T>(items: seq<X>, url: X -> string, f: (X, Json) -> Result<T>, srv: Server, history: seq<Event>, trace: seq<Event>, k: nat): Result<T>
    requires k < |items| && k <= |trace|
  {
    Step(srv, history + trace[..k], items[k], url, f)
  }

  /** A step that returned a value got a parsed answer to its GET and `f` accepted it. */
  lemma StepOk<X, T>(srv: Server, history: seq<Event>, x: X, url: X -> string, f: (X, Json) -> Result<T>, v: T)
    requires Step(srv, history, x, url, f) == Ok(v)
    ensures srv(history, Get(url(x))).Some? && f(x, srv(history, Get(url(x))).value) == Ok(v)
  {
  }

  /** Dropping the first item moves its GET from the trace into the history. */
  lemma StepAtShift<X, T>(items: seq<X>, url: X -> string, f: (X, Json) -> Result<T>, srv: Server, history: seq<Event>, first: Event, rest: seq<Event>, k: nat)
    requires 1 <= k < |items| && k <= |rest| + 1
    ensures StepAt(items, url, f, srv, history, [first] + rest, k) == StepAt(items[1..], url, f, srv, history + [first], rest, k - 1)
  {
    assert ([first] + rest)[..k] == [first] + rest[..k - 1];
    assert history + ([first] + rest)[..k] == (history + [first]) + rest[..k - 1];
  }

  /** Every value a successful `GetEach` returns is the outcome of its own item's GET. */
  lemma {:induction false} GetEachOk<X, T>(items: seq<X>, url: X -> string, f: (X, Json) -> Result<T>, srv: Server, history: seq<Event>)
    requires GetEach(items, url, f, srv, history).result.Ok?
    ensures var r := GetEach(items, url, f, srv, history);
      forall k :: 0 <= k < |items| ==> StepAt(items, url, f, srv, history, r.trace, k) == Ok(r.result.value[k])
    decreases |items|
  {
    if |items| > 0 {
      var r := GetEach(items, url, f, srv, history);
      var first := Get(url(items[0]));
      var rest := GetEach(items[1..], url, f, srv, history + [first]);
      GetEachOk(items[1..], url, f, srv, history + [first]);
      assert history + r.trace[..0] == history;
      forall k | 1 <= k < |items|
        ensures StepAt(items, url, f, srv, history, r.trace, k) == Ok(r.result.value[k])
      {
        StepAtShift(items, url, f, srv, history, first, rest.trace, k);
      }
    }
  }

  /**
   * Each value is what `f` made of the parsed answer to its own item's GET,
   * sent after the requests `trace` issued for the items before it.
   */
  predicate Answers<X, T(==)>(items: seq<X>, url: X -> string, f: (X, Json) -> Result<T>, srv: Server, history: seq<Event>, trace: seq<Event>, vals: seq<T>)
    requires |items| == |trace| == |vals|
  {
    forall k :: 0 <= k < |items| ==>
      && srv(history + trace[..k], Get(url(items[k]))).Some?
      && f(items[k], srv(history + trace[..k], Get(url(items[k]))).value) == Ok(vals[k])
  }

  /** The values of a completed `GetEach` answer its GETs one for one. */
  lemma GetEachAnswers<X, T>(items: seq<X>, url: X -> string, f: (X, Json) -> Result<T>, srv: Server, history: seq<Event>)
    requires GetEach(items, url, f, srv, history).result.Ok?
    ensures var r := GetEach(items, url, f, srv, history);
      Answers(items, url, f, srv, history, r.trace, r.result.value)
  {
    var r := GetEach(items, url, f, srv, history);
    GetEachOk(items, url, f, srv, history);
    forall k | 0 <= k < |items|
      ensures srv(history + r.trace[..k], Get(url(items[k]))).Some?
      ensures f(items[k], srv(history + r.trace[..k], Get(url(items[k]))).value) == Ok(r.result.value[k])
    {
      assert StepAt(items, url, f, srv, history, r.trace, k) == Ok(r.result.value[k]);
      StepOk(srv, history + r.trace[..k], items[k], url, f, r.result.value[k]);
    }
  }

  /** The loop that issued `trace` stopped at its last item: every earlier step succeeded and that one raised `fault`. */
  predicate StopsAt<X, T>(items: seq<X>, url: X -> string, f: (X, Json) -> Result<T>, srv: Server, history: seq<Event>, trace: seq<Event>, fault: Fault)
    requires 0 < |trace| <= |items|
  {
    && (forall k :: 0 <= k < |trace| - 1 ==> StepAt(items, url, f, srv, history, trace, k).Ok?)
    && StepAt(items, url, f, srv, history, trace, |trace| - 1) == Err(fault)
  }

  /** A failed `GetEach` stops at the first item whose GET or `f` raised, with that item's fault. */
  lemma {:induction false} GetEachErr<X, T>(items: seq<X>, url: X -> string, f: (X, Json) -> Result<T>, srv: Server, history: seq<Event>)
    requires GetEach(items, url, f, srv, history).result.Err?
    ensures var r := GetEach(items, url, f, srv, history);
      StopsAt(items, url, f, srv, history, r.trace, r.result.fault)
    decreases |items|
  {
    var r := GetEach(items, url, f, srv, history);
    assert history + r.trace[..0] == history;
    if Step(srv, history, items[0], url, f).Ok? {
      var first := Get(url(items[0]));
      var rest := GetEach(items[1..], url, f, srv, history + [first]);
      GetEachErr(items[1..], url, f, srv, history + [first]);
      forall k | 1 <= k < |r.trace|
        ensures StepAt(items, url, f, srv, history, r.trace, k) == StepAt(items[1..], url, f, srv, history + [first], rest.trace, k - 1)
      {
        StepAtShift(items, url, f, srv, history, first, rest.trace, k);
      }
    }
  }

  /** Distinct integer ids address distinct detail URLs, so no resource is fetched in place of another. */
  lemma DetailUrlInjective(base: string, collection: string, a: int, b: int)
    ensures DetailUrl(base, collection, JInt(a)) == DetailUrl(base, collection, JInt(b)) ==> a == b
  {
    var p := base + collection + "/id/";
    if DetailUrl(base, collection, JInt(a)) == DetailUrl(base, collection, JInt(b)) {
      assert Str(JInt(a)) == (p + Str(JInt(a)))[|p|..];
      assert Str(JInt(b)) == (p + Str(JInt(b)))[|p|..];
      StrIntInjective(a, b);
    }
  }
}

=== FILE: json.dfy ===
/**
 * A document as `json.loads` hands it to the scripts, and the few Python
 * operations the scripts apply to it: subscripting with a str key,
 * comparing with `True`, and using a value as a dict key. Every exception
 * these can raise is a `Fault`; an exception ends the run, so operations
 * return a `Result`.
 */
module Json {

  datatype Option<+T> = None | Some(value: T)

  /** A decoded JSON value. JSON numbers with a fraction are not modelled. */
  datatype Json =
    | JNull
    | JBool(b: bool)
    | JInt(n: int)
    | JStr(s: string)
    | JArr(items: seq<Json>)
    | JObj(fields: map<string, Json>)

  /** The exceptions that end a run. */
  datatype Fault =
    | KeyError(key: Json)  // a dict lacks the key: a str key, or the int 0 for `d[0]`
    | TypeError            // the value does not support the subscript, `len`, iteration or hashing
    | BadResponse          // the request failed or its body is not JSON

  datatype Result<+T> = Ok(value: T) | Err(fault: Fault) {
    predicate IsFailure() { Err? }
    function PropagateFailure<U>(): Result<U>
      requires Err?
    {
      Err(fault)
    }
    function Extract(): T
      requires Ok?
    {
      value
    }
  }

  /** `j[key]` for a str key: only a dict can be subscripted by a str. */
  function At(j: Json, key: string): Result<Json>
  {
    match j
    case JObj(m) => if key in m then Ok(m[key]) else Err(KeyError(JStr(key)))
    case _ => Err(TypeError)
  }

  /** `j[keys[0]][keys[1]]...`, left to right; the first failing subscript decides the fault. */
  function AtPath(j: Json, keys: seq<string>): Result<Json>
    decreases |keys|
  {
    if |keys| == 0 then Ok(j)
    else
      var child :- At(j, keys[0]);
      AtPath(child, keys[1..])
  }

  /** Python's `j == True`: `True` and the integer `1` both compare equal to `True`. */
  predicate IsTrue(j: Json)
  {
    j == JBool(true) || j == JInt(1)
  }

  /** Whether `hash(j)` succeeds: lists and dicts are unhashable. */
  predicate Hashable(j: Json)
  {
    !j.JArr? && !j.JObj?
  }

  /**
   * The key a dict files `j` under. `True == 1` and `False == 0` in Python,
   * so they address the same entry; this picks the integer as representative.
   */
  function DictKey(j: Json): Json
  {
    if j.JBool? then JInt(if j.b then 1 else 0) else j
  }
}

=== FILE: pytext.dfy ===
/**
 * Python's `str()` of a decoded value, as the scripts splice it into URLs,
 * and a decimal reader that inverts it on integers.
 */
module PyText {
  import opened Json

  predicate IsDigit(c: char)
  {
    '0' <= c <= '9'
  }

  predicate AllDigits(s: string)
  {
    forall i :: 0 <= i < |s| ==> IsDigit(s[i])
  }

  function DigitChar(d: nat): (c: char)
    requires d < 10
  {
    (48 + d) as char
  }

  /** The decimal digits of `n`, most significant first, without leading zeros. */
  function NatToDecimal(n: nat): (s: string)
    ensures |s| >= 1 && AllDigits(s)
    ensures n > 0 ==> s[0] != '0'
    decreases n
  {
    if n < 10 then [DigitChar(n)]
    else NatToDecimal(n / 10) + [DigitChar(n % 10)]
  }

  /** `str(n)` for an int. */
  function IntToDecimal(n: int): string
  {
    if n < 0 then "-" + NatToDecimal(-n) else NatToDecimal(n)
  }

  /** `str(j)`. Lists and dicts print as their repr, which is not modelled: a fixed placeholder stands in. */
  function Str(j: Json): string
  {
    match j
    case JNull => "None"
    case JBool(b) => if b then "True" else "False"
    case JInt(n) => IntToDecimal(n)
    case JStr(s) => s
    case JArr(_) => "[...]"
    case JObj(_) => "{...}"
  }

  /** The value of a string of decimal digits. */
  function DigitsValue(s: string): nat
    requires AllDigits(s)
    decreases |s|
  {
    if |s| == 0 then 0
    else DigitsValue(s[..|s| - 1]) * 10 + (s[|s| - 1] as int - 48)
  }

  /** `int(s)` restricted to an optional minus sign followed by at least one digit. */
  function ParseInt(s: string): Option<int>
  {
    if |s| > 1 && s[0] == '-' && AllDigits(s[1..]) then Some(0 - DigitsValue(s[1..]) as int)
    else if |s| > 0 && AllDigits(s) then Some(DigitsValue(s) as int)
    else None
  }

  lemma {:induction false} NatToDecimalValue(n: nat)
    ensures DigitsValue(NatToDecimal(n)) == n
    decreases n
  {
    var s := NatToDecimal(n);
    if n >= 10 {
      NatToDecimalValue(n / 10);
      assert s[..|s| - 1] == NatToDecimal(n / 10);
    }
  }

  /** Reading back `str(n)` gives `n`: the rendering loses nothing. */
  lemma IntToDecimalRoundTrip(n: int)
    ensures ParseInt(IntToDecimal(n)) == Some(n)
  {
    var s := IntToDecimal(n);
    if n < 0 {
      NatToDecimalValue(-n);
      assert s[1..] == NatToDecimal(-n);
    } else {
      NatToDecimalValue(n);
      assert s[0] != '-';
    }
  }

  /** Distinct integer ids print as distinct strings. */
  lemma StrIntInjective(a: int, b: int)
    ensures Str(JInt(a)) == Str(JInt(b)) ==> a == b
  {
    IntToDecimalRoundTrip(a);
    IntToDecimalRoundTrip(b);
  }
}

=== FILE: rows.dfy ===
/**
 * Building a flat export row from a detail document: each column is filled
 * by `row[column] = doc[p0][p1]...[pn]`, one assignment per column, in a
 * fixed order. A missing path raises; nothing is defaulted.
 */
module Rows {
  import opened Json
  import opened Http

  /** One `row[column] = doc[path[0]]...[path[n]]` line. */
  datatype Field = Field(column: string, path: seq<string>)

  function ColumnsOf(fields: seq<Field>): set<string>
  {
    set i | 0 <= i < |fields| :: fields[i].column
  }

  predicate DistinctColumns(fields: seq<Field>)
  {
    forall i, j :: 0 <= i < j < |fields| ==> fields[i].column != fields[j].column
  }

  /** Distinct columns name as many columns as there are fields. */
  lemma {:induction false} ColumnCount(fields: seq<Field>)
    requires DistinctColumns(fields)
    ensures |ColumnsOf(fields)| == |fields|
    decreases |fields|
  {
    if |fields| > 0 {
      var n := |fields| - 1;
      var front := fields[..n];
      assert DistinctColumns(front);
      ColumnCount(front);
      assert ColumnsOf(fields) == ColumnsOf(front) + {fields[n].column};
      assert fields[n].column !in ColumnsOf(front);
    }
  }

  /** Every field's path leads to a value in `doc`. */
  predicate Resolves(doc: Json, fields: seq<Field>)
  {
    forall i :: 0 <= i < |fields| ==> AtPath(doc, fields[i].path).Ok?
  }

  /** `row` holds, under each field's column, the value at that field's path, unchanged. */
  predicate Copies(row: Row, doc: Json, fields: seq<Field>)
  {
    forall i :: 0 <= i < |fields| ==> fields[i].column in row && AtPath(doc, fields[i].path) == Ok(row[fields[i].column])
  }

  /** The path of field `i` is the first of `fields` that fails, with `fault`. */
  predicate FirstFailure(doc: Json, fields: seq<Field>, i: nat, fault: Fault)
  {
    && i < |fields|
    && AtPath(doc, fields[i].path) == Err(fault)
    && forall j :: 0 <= j < i ==> AtPath(doc, fields[j].path).Ok?
  }

  /** A first failure among the leading fields stays the first failure when fields are added after them. */
  lemma FirstFailureExtends(doc: Json, fields: seq<Field>, n: nat, i: nat, fault: Fault)
    requires n <= |fields| && FirstFailure(doc, fields[..n], i, fault)
    ensures FirstFailure(doc, fields, i, fault) && !Resolves(doc, fields)
  {
    assert forall j :: 0 <= j <= i ==> fields[..n][j] == fields[j];
  }

  /** Assigning the last field to the row of the fields before it gives the row of all of them. */
  lemma ProjectExtends(doc: Json, fields: seq<Field>, init: Row, v: Json)
    requires |fields| > 0 && DistinctColumns(fields)
    requires var front := fields[..|fields| - 1];
      init.Keys == ColumnsOf(front) && Copies(init, doc, front) && Resolves(doc, front)
    requires AtPath(doc, fields[|fields| - 1].path) == Ok(v)
    ensures var row := init[fields[|fields| - 1].column := v];
      row.Keys == ColumnsOf(fields) && Copies(row, doc, fields) && Resolves(doc, fields)
  {
    var n := |fields| - 1;
    var front := fields[..n];
    assert forall i :: 0 <= i < n ==> front[i] == fields[i];
    assert ColumnsOf(fields) == ColumnsOf(front) + {fields[n].column};
    assert fields[n].column !in init;
  }

  /** The assignments of `fields`, in order, into an empty dict. */
  function Project(doc: Json, fields: seq<Field>): (r: Result<Row>)
    requires DistinctColumns(fields)
    ensures r.Ok? <==> Resolves(doc, fields)
    ensures r.Ok? ==> r.value.Keys == ColumnsOf(fields) && Copies(r.value, doc, fields)
    ensures r.Err? ==> exists i :: FirstFailure(doc, fields, i, r.fault)
    decreases |fields|
  {
    if |fields| == 0 then Ok(map[])
    else
      var n := |fields| - 1;
      var front := fields[..n];
      assert DistinctColumns(front);
      match Project(doc, front)
      case Err(e) =>
        var i :| FirstFailure(doc, front, i, e);
        FirstFailureExtends(doc, fields, n, i, e);
        Err(e)
      case Ok(init) =>
        match AtPath(doc, fields[n].path)
        case Err(e) =>
          assert forall j :: 0 <= j < n ==> front[j] == fields[j];
          assert FirstFailure(doc, fields, n, e);
          Err(e)
        case Ok(v) =>
          ProjectExtends(doc, fields, init, v);
          Ok(init[fields[n].column := v])
  }
}
